=== FILE: README.md ===
# Charging widget — a Dafny model of its decision logic

The app is an Android home-screen widget that shows live charging power,
current, voltage, temperature and battery level. Two pieces of it decide
things, and this project models both with the platform replaced by plain
inputs and effect traces:

- **The telemetry reconciler** (`ChargingDataProvider.getChargingInfo`). It
  turns one bundle of raw readings into one `ChargingInfo`. The bundle holds
  the `BatteryManager` charging flag and properties, the sticky
  battery-changed intent as an optional map of integer extras, and the /sys
  tree as a map from path to file state. The rules are:
  - ordered first-present-non-zero fallback chains over five `current_now`
    paths and three `voltage_now` paths;
  - Kotlin's truncating integer division for the unit conversions;
  - the percent fallback, the plug-code mapping and the temperature scaling;
  - no power is shown unless the device is charging.

  `readSysFile` is modelled in full: trimming, then `toIntOrNull` as a
  parser of optionally signed 32-bit decimal text. A round-trip lemma shows
  the parser reads back every formatted 32-bit integer.
- **The last-known-state store** (`BatteryStateStore`). It is a JSON object
  in one file, modelled as absent, corrupt, or a map from key to value.
  `save` writes five fields. `load` reads them back with a default per field
  and falls back to the all-default record on any failure.
- **The refresh orchestration.** The receivers, the scheduled jobs, the
  periodic worker, the widget callbacks, the launch path and the foreground
  service with its two-second polling loop are each modelled as a pure
  function `(State, Env) -> (State', effect trace)`. The state holds:
  - whether the service is running;
  - how many polling loops are alive;
  - the scheduled jobs;
  - the unique periodic work.

  `Refresh.Handle` dispatches every event to its handler. `Refresh.Run`
  chains any number of events. The invariant "at most one loop, and only
  inside a running service" is proved for every run.

The two-tier "is charging" check is written out seven times in the source:
once in the reconciler and once in each of six orchestration files. It is
defined once here, as `Telemetry.ChargingRule`, and every handler consults
it. The seven copies are at:
- `data/ChargingDataProvider.kt:149-159`
- `service/WidgetUpdateService.kt:139-149`
- `service/ChargingJobService.kt:70-80`
- `worker/ChargingCheckWorker.kt:33-43`
- `widget/ChargingWidgetProvider.kt:54-64`
- `receiver/BootReceiver.kt:23-38`
- `MainActivity.kt:107-123`

Platform constants used:
- `BATTERY_STATUS_CHARGING` = 2 and `BATTERY_STATUS_FULL` = 5;
- `BATTERY_PLUGGED_AC` = 1, `BATTERY_PLUGGED_USB` = 2 and
  `BATTERY_PLUGGED_WIRELESS` = 4;
- the intent extra keys "status", "level", "scale", "plugged",
  "temperature" and "voltage";
- API level 33 for the notification-permission check.

Modelling choices:
- `WidgetUpdateService.start` only issues the start request, or draws once
  directly if the platform refuses a foreground start. The service's
  `onCreate`/`onStartCommand` is a separate event. So each handler's trace is
  exactly the calls its own code makes.
- A loop iteration is one `LoopTick` event, carrying what is observed after
  the two-second delay.
- `updateJob?.cancel()` cancels only the loop the service tracks. So "at most
  one loop" is a proved invariant, not an assumption.
- `updateWidget` calls `getChargingInfo()` once per widget, so
  `UpdateAllWidgets` takes one snapshot per widget; the i-th is
  `GetChargingInfo` of the readings taken for the i-th widget.
  `WidgetView.ViewOfReadings` states what a view drawn from live readings
  shows.
- The platform, or the user from the task manager, can end the service
  without `stop`; that is the `ServiceDestroyed` event, which runs only
  `onDestroy`.
- Killing the process is the `ProcessKilled` event. It ends the polling
  loop without `onDestroy`. Because `onStartCommand` returns `START_STICKY`,
  the service stays started, and the platform's later start command is the
  ordinary `ServiceStartCommand` event.
- An effect records a call. `StopService` is recorded even when no service
  runs; the state then does not change.
- The job started by the second scheduled job (id 1002, no charging
  constraint) is just another trigger. Firing a job does not remove it from
  the scheduler's map.

Files: `wrappers.dfy` (Option), `sysfs.dfy`, `telemetry.dfy`, `store.dfy`,
`refresh_state.dfy`, `update_service.dfy`, `job_service.dfy`,
`check_worker.dfy`, `receivers.dfy`, `widget_view.dfy`,
`widget_provider.dfy`, `main_activity.dfy`, `refresh.dfy`.

## Model

Source paths are relative to the repository root, under `app/src/main/java/com/chargingwidget/`.

| member | source | states |
|---|---|---|
| SysFs.ReadSysFile | app/src/main/java/com/chargingwidget/data/ChargingDataProvider.kt:136-147 | a missing, unreadable or throwing file gives no value; a readable file gives a value exactly when its trimmed text is optionally signed decimal digits whose number fits in 32 bits, and the value is that number |
| SysFs.ParseInt | app/src/main/java/com/chargingwidget/data/ChargingDataProvider.kt:140 | `toIntOrNull` gives a value exactly when the text is an optional sign followed by at least one digit and the number fits in 32 bits; the value is the text's signed number, so "+5", "007" and "-0" read as 5, 7 and 0 |
| SysFs.Trim | app/src/main/java/com/chargingwidget/data/ChargingDataProvider.kt:140 | the result is a slice of the text with only whitespace before and after it, and it neither starts nor ends with whitespace |
| SysFs.TrimIsInnerSlice | app/src/main/java/com/chargingwidget/data/ChargingDataProvider.kt:140 | cutting a whitespace prefix and then a whitespace suffix leaves a slice of the text with only whitespace around it |
| SysFs.ParseFormatInt | app/src/main/java/com/chargingwidget/data/ChargingDataProvider.kt:140 | every 32-bit integer, written in decimal, parses back to itself |
| SysFs.ReadFormattedFile | app/src/main/java/com/chargingwidget/data/ChargingDataProvider.kt:136-147 | a readable file holding a decimal integer and a newline reads as that integer |
| Telemetry.ChargingRuleCases | app/src/main/java/com/chargingwidget/data/ChargingDataProvider.kt:149-159 | charging if the manager says so; otherwise charging iff the intent's status is 2 or 5; with no intent and no manager flag, not charging |
| Telemetry.TruncDiv | app/src/main/java/com/chargingwidget/data/ChargingDataProvider.kt:57-59 | Kotlin division by a positive divisor: the magnitude is the magnitude of the dividend divided down, and the sign follows the dividend |
| Telemetry.FirstUsable | app/src/main/java/com/chargingwidget/data/ChargingDataProvider.kt:94-99 | no value iff no entry is present and non-zero; otherwise the value is a present non-zero entry with no such entry before it |
| Telemetry.FirstUsableAt | app/src/main/java/com/chargingwidget/data/ChargingDataProvider.kt:94-99 | the earliest present non-zero entry is the one chosen |
| Telemetry.CurrentFromFile | app/src/main/java/com/chargingwidget/data/ChargingDataProvider.kt:84-99 | a usable `current_now` file with none usable before it in the fixed five-path order is the one whose value is returned |
| Telemetry.CurrentFromProperty | app/src/main/java/com/chargingwidget/data/ChargingDataProvider.kt:84-103 | with no usable `current_now` file, the current property is returned unfiltered (zero or negative included) |
| Telemetry.VoltageFromFile | app/src/main/java/com/chargingwidget/data/ChargingDataProvider.kt:108-121 | a usable `voltage_now` file with none usable before it in the fixed three-path order is the one whose value is returned |
| Telemetry.VoltageFromIntent | app/src/main/java/com/chargingwidget/data/ChargingDataProvider.kt:108-131 | with no usable `voltage_now` file, the re-read intent's voltage times 1000, or 0 with no intent or no voltage extra |
| Telemetry.ThirdSourceWins | app/src/main/java/com/chargingwidget/data/ChargingDataProvider.kt:94-99 | when the first two sources are absent or zero and the third holds a non-zero value, that value is returned |
| Telemetry.BatteryPercent | app/src/main/java/com/chargingwidget/data/ChargingDataProvider.kt:161-176 | a positive capacity is returned as is; otherwise level*100/scale rounded down when level >= 0 and scale > 0, else 0; never negative, not clamped to 100 |
| Telemetry.PercentFromIntent | app/src/main/java/com/chargingwidget/data/ChargingDataProvider.kt:168-173 | a failing capacity query with level 50 of scale 100 gives 50 |
| Telemetry.ChargingType | app/src/main/java/com/chargingwidget/data/ChargingDataProvider.kt:178-190 | "Not Charging" iff not charging; while charging one of AC, USB, Wireless, Charging, and Charging when there is no intent |
| Telemetry.ChargingTypeMapping | app/src/main/java/com/chargingwidget/data/ChargingDataProvider.kt:183-189 | while charging: AC iff plugged is 1, USB iff 2, Wireless iff 4, the generic label for every other code |
| Telemetry.Temperature | app/src/main/java/com/chargingwidget/data/ChargingDataProvider.kt:192-195 | ten times the result is the raw tenths from the intent; 0 without an intent |
| Telemetry.Wattage | app/src/main/java/com/chargingwidget/data/ChargingDataProvider.kt:64-68 | never negative; 0 when not charging or the current is 0; otherwise 10^12 times the result is the magnitude of the voltage-current product |
| Telemetry.GetChargingInfo | app/src/main/java/com/chargingwidget/data/ChargingDataProvider.kt:36-79 | the charging flag is the two-tier rule; the wattage is that of the chosen voltage and current under the flag; current in mA is the magnitude of the chosen current divided by 1000 with truncation; voltage in mV is the chosen voltage divided by 1000 with truncation, sign kept; percent, label and temperature are those of the capacity property and the sticky intent; the label is "Not Charging" iff not charging |
| Telemetry.TenWattExample | app/src/main/java/com/chargingwidget/data/ChargingDataProvider.kt:57-68 | the newline-terminated texts "2000000" in the first current file and "5000000" in the first voltage file, read while charging, give 10 W, 2000 mA and 5000 mV |
| StateStore.DefaultInfo | app/src/main/java/com/chargingwidget/data/BatteryStateStore.kt:55-63 | every number 0, not charging, label "Not Charging" |
| StateStore.Encode | app/src/main/java/com/chargingwidget/data/BatteryStateStore.kt:20-26 | the saved object has exactly the five keys isCharging, wattage, batteryPercent, currentMa, chargingType |
| StateStore.Save | app/src/main/java/com/chargingwidget/data/BatteryStateStore.kt:18-31 | a successful write leaves a file that loads back as the five persisted fields; with the write taken as atomic, a failed write leaves the file unchanged |
| StateStore.Load | app/src/main/java/com/chargingwidget/data/BatteryStateStore.kt:33-53 | voltage and temperature always load as 0; no file or an unreadable or unparsable file gives the default record |
| StateStore.LoadAfterSave | app/src/main/java/com/chargingwidget/data/BatteryStateStore.kt:18-46 | save then load returns isCharging, wattage, batteryPercent, currentMa and chargingType of the saved record, with voltage and temperature 0 |
| StateStore.LastSaveWins | app/src/main/java/com/chargingwidget/data/BatteryStateStore.kt:27 | two saves then a load give the second record's persisted fields |
| StateStore.FailedSaveInvisible | app/src/main/java/com/chargingwidget/data/BatteryStateStore.kt:28-30 | with the write taken as atomic, a failed save does not change what the next load returns |
| StateStore.MissingKeyDefaults | app/src/main/java/com/chargingwidget/data/BatteryStateStore.kt:38-46 | each missing key gives its own default: wattage 0, current 0, percent 0, not charging, "Not Charging" |
| StateStore.FieldsIndependent | app/src/main/java/com/chargingwidget/data/BatteryStateStore.kt:39-44 | each field depends only on its own key: objects that agree on a key load the same value for it |
| StateStore.LoadedSnapshotConsistent | app/src/main/java/com/chargingwidget/data/BatteryStateStore.kt:33-46 | a reconciler snapshot saved and loaded back still shows no power when not charging and a label that agrees with the flag |
| UpdateService.Start | app/src/main/java/com/chargingwidget/service/WidgetUpdateService.kt:41-49 | an allowed start issues only the start request and marks the service started; a refused start draws exactly once and changes nothing |
| UpdateService.Stop | app/src/main/java/com/chargingwidget/service/WidgetUpdateService.kt:51-57 | issues the stop request and never fails; afterwards no service and no loop; with no service running, the state is unchanged |
| UpdateService.StartUpdating | app/src/main/java/com/chargingwidget/service/WidgetUpdateService.kt:119-121 | the tracked loop is cancelled before a new one is launched, so from at most one loop there is exactly one |
| UpdateService.Destroy | app/src/main/java/com/chargingwidget/service/WidgetUpdateService.kt:82-86 | the service is gone and its loop cancelled; jobs and work untouched |
| UpdateService.OnStartCommand | app/src/main/java/com/chargingwidget/service/WidgetUpdateService.kt:66-78 | every start command draws exactly once and leaves the service running with exactly one loop |
| UpdateService.LoopTick | app/src/main/java/com/chargingwidget/service/WidgetUpdateService.kt:122-135 | an iteration draws before it checks; still charging, it only draws and nothing else changes; not charging, it draws once more, stops the service and ends its loop; with no loop, nothing happens; jobs and periodic work are never touched |
| UpdateService.OnPowerDisconnected | app/src/main/java/com/chargingwidget/service/WidgetUpdateService.kt:88-98 | while the service runs, a disconnect draws once and then stops it; with no service running, nothing happens; jobs and periodic work are never touched |
| UpdateService.StartCommandIdempotent | app/src/main/java/com/chargingwidget/service/WidgetUpdateService.kt:119-121 | a second start command leaves the same state as the first |
| UpdateService.StopIdempotent | app/src/main/java/com/chargingwidget/service/WidgetUpdateService.kt:51-57 | stopping twice is stopping once |
| UpdateService.NoTickAfterStop | app/src/main/java/com/chargingwidget/service/WidgetUpdateService.kt:82-86 | after a stop, a loop tick does nothing |
| UpdateService.SessionWithoutCharging | app/src/main/java/com/chargingwidget/service/WidgetUpdateService.kt:73-135 | a session started while not charging draws three times and ends with no service and no loop |
| JobService.Schedule | app/src/main/java/com/chargingwidget/service/ChargingJobService.kt:20-43 | registers job 1001 requiring charging and job 1002 without constraint, both persisted, replacing jobs with those ids; every other job keeps its id and its spec |
| JobService.ScheduleExact | app/src/main/java/com/chargingwidget/service/ChargingJobService.kt:20-43 | from a valid state the scheduler holds exactly these two jobs, and scheduling again changes nothing |
| JobService.OnStartJob | app/src/main/java/com/chargingwidget/service/ChargingJobService.kt:46-64 | draws first; starts the service when charging and stops it otherwise, so afterwards it runs iff charging and it was running or may start; re-schedules both jobs last; leaves the periodic work and, when charging, the loop count alone; reports completion with false |
| JobService.OnStopJob | app/src/main/java/com/chargingwidget/service/ChargingJobService.kt:66-68 | asks for a retry and changes nothing at all |
| JobService.JobRunFollowsRule | app/src/main/java/com/chargingwidget/service/ChargingJobService.kt:52-58 | when the start is allowed, after a job run the service runs iff the charging rule holds |
| CheckWorker.Schedule | app/src/main/java/com/chargingwidget/worker/ChargingCheckWorker.kt:48-58 | enqueues "charging_check_worker" every 15 minutes unless work under that name already exists (KEEP) |
| CheckWorker.ScheduleKeepsOne | app/src/main/java/com/chargingwidget/worker/ChargingCheckWorker.kt:53-57 | scheduling any number of times leaves exactly one entry, the same as scheduling once |
| CheckWorker.DoWork | app/src/main/java/com/chargingwidget/worker/ChargingCheckWorker.kt:21-31 | always draws first and reports success; starts the service when charging; when not charging changes nothing |
| CheckWorker.WorkerNeverStops | app/src/main/java/com/chargingwidget/worker/ChargingCheckWorker.kt:25-28 | the worker never stops a running service and never issues a stop |
| PowerReceiver.OnReceive | app/src/main/java/com/chargingwidget/receiver/ChargingStateReceiver.kt:11-26 | connected: draw, then start; disconnected: stop, then draw, leaving no service; any other action: nothing |
| PowerReceiver.OneRenderPerBroadcast | app/src/main/java/com/chargingwidget/receiver/ChargingStateReceiver.kt:13-24 | a handled broadcast draws exactly once, plus the start's fallback draw when a foreground start is refused |
| PowerReceiver.IgnoresChargingState | app/src/main/java/com/chargingwidget/receiver/ChargingStateReceiver.kt:12-25 | the outcome does not depend on the charging state at all |
| BootReceiver.OnReceive | app/src/main/java/com/chargingwidget/receiver/BootReceiver.kt:15-21 | BOOT_COMPLETED while charging starts the service; not charging, or any other action, does nothing |
| BootReceiver.BootOnlyStarts | app/src/main/java/com/chargingwidget/receiver/BootReceiver.kt:15-21 | boot never schedules, never stops, and draws nothing unless a refused start falls back to drawing |
| WidgetView.ViewOf | app/src/main/java/com/chargingwidget/widget/ChargingWidgetProvider.kt:67-108 | the type label and percent text are the snapshot's; while charging the wattage shows the snapshot's watts and the current line shows its mA; not charging, the "-- W" placeholder and no current line; the icon is the charging icon iff charging; the progress bar has max 100 and value batteryPercent, unclamped |
| WidgetView.ViewOfReadings | app/src/main/java/com/chargingwidget/widget/ChargingWidgetProvider.kt:68-98 | drawn from live readings, power and current are shown iff the charging rule holds; the current shown is the measured magnitude in whole mA; the wattage shown is never negative |
| WidgetView.UpdateAllWidgets | app/src/main/java/com/chargingwidget/widget/ChargingWidgetProvider.kt:110-118 | every installed id is drawn once, in order, the i-th from the i-th snapshot; no ids, no drawing |
| WidgetProvider.OnUpdate | app/src/main/java/com/chargingwidget/widget/ChargingWidgetProvider.kt:23-36 | draws the given widgets first, then starts the service iff charging |
| WidgetProvider.OnEnabled | app/src/main/java/com/chargingwidget/widget/ChargingWidgetProvider.kt:38-47 | schedules the jobs, then the worker, then starts the service iff charging; draws nothing itself; the service ends up running iff it was, or charging with a start allowed; the loop count is unchanged; the jobs and the periodic work are exactly those `schedule` and the 15-minute KEEP worker registration leave |
| WidgetProvider.OnDisabled | app/src/main/java/com/chargingwidget/widget/ChargingWidgetProvider.kt:49-52 | stops the service, leaving no service and no loop |
| MainActivity.StartServiceIfCharging | app/src/main/java/com/chargingwidget/MainActivity.kt:125-132 | returns true iff charging, and starts the service exactly in that case |
| MainActivity.InitializeAndStartService | app/src/main/java/com/chargingwidget/MainActivity.kt:96-105 | in order: schedule jobs, schedule worker, draw, then the start only if charging; the service ends up running iff it was, or charging with a start allowed; the loop count is unchanged; the jobs and the periodic work are exactly those `schedule` and the 15-minute KEEP worker registration leave |
| MainActivity.OnCreate | app/src/main/java/com/chargingwidget/MainActivity.kt:48-66 | below API 33, or with the permission granted, initializes at once; otherwise only requests the permission |
| MainActivity.OnPermissionResult | app/src/main/java/com/chargingwidget/MainActivity.kt:40-46 | a grant initializes; a denial does nothing |
| MainActivity.PermissionGating | app/src/main/java/com/chargingwidget/MainActivity.kt:40-66 | launch schedules jobs iff no permission is needed or it is held; a request followed by a denial leaves the state untouched |
| Refresh.Handle | app/src/main/java/com/chargingwidget/service/WidgetUpdateService.kt:82-137 | every handler of every trigger, including the platform destroying the service on its own and the process being killed, keeps the invariant: at most one loop, only while the service runs, only the app's own jobs and work; the service's disconnect receiver fires only while its loop is alive |
| Refresh.RunPreservesValid | app/src/main/java/com/chargingwidget/service/WidgetUpdateService.kt:119-121 | any sequence of triggers keeps that invariant |
| Refresh.AtMostOneLoop | app/src/main/java/com/chargingwidget/service/WidgetUpdateService.kt:119-135 | from a fresh install, no sequence of triggers ever leaves two polling loops alive, or a loop without a service |
| Refresh.ConnectTwiceThenDisconnect | app/src/main/java/com/chargingwidget/receiver/ChargingStateReceiver.kt:13-24 | plugging in twice yields one running session with one loop; unplugging stops it and draws a final time |
| Refresh.StickyRestart | app/src/main/java/com/chargingwidget/service/WidgetUpdateService.kt:66-78 | a started service whose process is killed resumes, on the sticky restart's start command, with exactly one loop after one drawing pass, and nothing else changed |
| Refresh.NoReceiverWithoutLoop | app/src/main/java/com/chargingwidget/service/WidgetUpdateService.kt:60-64 | with no live loop, before the service is created or after its process is killed, the service's disconnect event changes nothing and draws nothing |
| Refresh.IdleCheckOnlyRenders | app/src/main/java/com/chargingwidget/worker/ChargingCheckWorker.kt:21-31 | a periodic check while idle and not charging draws once and starts nothing; no loop tick happens while idle |
| Refresh.ProbeOnlyThroughRule | app/src/main/java/com/chargingwidget/MainActivity.kt:107-123 | every trigger handler sees the device only through the shared two-tier rule: observations the rule cannot tell apart give the same outcome |

## Left out

- Kotlin 32-bit `Int` overflow is not modelled. This affects `level * 100` in
  the percent fallback and `voltageMv * 1000` in the voltage fallback. All
  arithmetic is on unbounded integers; only the file parser enforces the
  32-bit range, as `toIntOrNull` does.
- Floating point: wattage and temperature are exact `real`s. There is no
  `Double`/`Float` rounding.
- The `DecimalFormat("#.#")` text is abstracted to `Formatted(watts)` or the
  placeholder. The mA, percent and type strings are kept as the values they
  show.
- `SysFs.Trim`: only the ASCII whitespace of `Char.isWhitespace` is
  trimmed. The Unicode space characters Kotlin also trims are not modelled.
- `SysFs.ParseInt`: only ASCII digits are accepted. `toIntOrNull` also
  accepts other Unicode decimal digits.
- `StateStore.Save` and `StateStore.FailedSaveInvisible`: the write is
  taken as atomic. `writeText` truncates the file when it opens it, so a
  failure after the open leaves an empty or partial file, and the next load
  then returns the default record rather than the previous one. Only a
  failure on open leaves the file as it was, which is the case modelled.
- `StateStore.Load`: `org.json` type coercions other than number to number
  are not modelled. For example, a string "true" read by `optBoolean`, or a
  number read by `optString`, gives the field's default here. The JSON text
  itself, and writing it to disk, are abstract.
- The notification channel, the notification builder and `updateNotification`
  in each loop iteration are platform chrome.
- The Compose UI of `MainActivity`, with its own two-second poll, is left
  out, and so is theming.
- `onBind` is left out.
- Android framework semantics are left out:
  - when jobs fire and how their constraints are evaluated;
  - WorkManager execution;
  - foreground-service timing rules, beyond the start being refused;
  - `PendingIntent` and `RemoteViews`.

  These are inputs (`Env`) or effects.
- `startForeground` failing inside `onStartCommand` is not modelled. Only
  the refusal caught by `WidgetUpdateService.start` is.
- Coroutines, `Dispatchers.Main`, `delay(2000)` and real time are left out.
  The loop is a sequence of discrete tick events, and concurrency between
  triggers is not modelled.
- `BatteryStateStore` is not called from any of the app's other files. It
  is modelled as a standalone unit and is not wired into the orchestration.
- `app/build.gradle.kts` is build configuration only.

=== FILE: check_worker.dfy ===
/**
  `ChargingCheckWorker`: a unique periodic background task, every 15
  minutes, as the last-resort backstop.
*/
module CheckWorker {
  import opened RefreshState
  import Telemetry
  import UpdateService

  /** What `doWork` reports to the work manager. */
  datatype WorkResult = Success | Retry | Failure

  /** `schedule`: enqueues the unique periodic work under its name with the
      KEEP policy, so work already enqueued under that name stays as it is. */
  function Schedule(s: State): (r: Step)
    ensures r.effects == [ScheduleWorker]
    ensures WORK_NAME in r.state.periodicWork
    ensures WORK_NAME in s.periodicWork ==> r.state == s
    ensures WORK_NAME !in s.periodicWork ==> r.state.periodicWork == s.periodicWork[WORK_NAME := WORK_REPEAT_MINUTES]
    ensures r.state == s.(periodicWork := r.state.periodicWork)
    ensures Valid(s) ==> Valid(r.state)
  {
    if WORK_NAME in s.periodicWork then Step(s, [ScheduleWorker])
    else Step(s.(periodicWork := s.periodicWork[WORK_NAME := WORK_REPEAT_MINUTES]), [ScheduleWorker])
  }

  /** Scheduling any number of times leaves exactly one entry, and
      scheduling again changes nothing. */
  lemma {:induction false} ScheduleKeepsOne(s: State, n: nat)
    requires Valid(s)
    ensures ScheduleTimes(s, n + 1).periodicWork.Keys == {WORK_NAME}
    ensures ScheduleTimes(s, n + 1) == Schedule(s).state
  {
    if n > 0 {
      ScheduleKeepsOne(s, n - 1);
    }
  }

  /** The state after scheduling `n` times in a row. */
  function ScheduleTimes(s: State, n: nat): State {
    if n == 0 then s else Schedule(ScheduleTimes(s, n - 1)).state
  }

  /** `doWork`: renders, then starts the service when charging. Not charging
      never stops the service. Always reports success. */
  function DoWork(s: State, env: Env): (r: Reply<WorkResult>)
    ensures r.value == Success
    ensures |r.step.effects| >= 1 && r.step.effects[0] == Render(env.widgets)
    ensures Telemetry.ChargingRule(env.probe) ==>
      r.step == Step(UpdateService.Start(s, env).state, RenderAll(env) + UpdateService.Start(s, env).effects)
    ensures !Telemetry.ChargingRule(env.probe) ==> r.step == Step(s, RenderAll(env))
    ensures Valid(s) ==> Valid(r.step.state)
  {
    if Telemetry.ChargingRule(env.probe) then
      var started := UpdateService.Start(s, env);
      Reply(Step(started.state, RenderAll(env) + started.effects), Success)
    else Reply(Step(s, RenderAll(env)), Success)
  }

  /** The worker never stops the service: if it was running, it still runs. */
  lemma WorkerNeverStops(s: State, env: Env)
    ensures s.serviceRunning ==> DoWork(s, env).step.state.serviceRunning
    ensures StopService !in DoWork(s, env).step.effects
  {
  }
}

=== FILE: job_service.dfy ===
/**
  `ChargingJobService`: two persisted scheduler jobs as a backstop for missed
  broadcasts. Job 1001 requires charging; job 1002 has no charging
  constraint and is simply one more trigger.
*/
module JobService {
  import opened RefreshState
  import Telemetry
  import UpdateService

  /** The two jobs `schedule` registers. */
  const ChargingJob: JobSpec := JobSpec(requiresCharging := true, persisted := true)
  const UnconstrainedJob: JobSpec := JobSpec(requiresCharging := false, persisted := true)

  /** `schedule`: registers both jobs; a job with an id already held is
      replaced, every other job is kept. */
  function Schedule(s: State): (r: Step)
    ensures r.effects == [ScheduleJobs]
    ensures r.state.jobs.Keys == s.jobs.Keys + {JOB_ID_CHARGING, JOB_ID_NOT_CHARGING}
    ensures r.state.jobs[JOB_ID_CHARGING] == ChargingJob
    ensures r.state.jobs[JOB_ID_NOT_CHARGING] == UnconstrainedJob
    ensures forall id :: id in s.jobs && id != JOB_ID_CHARGING && id != JOB_ID_NOT_CHARGING ==>
      r.state.jobs[id] == s.jobs[id]
    ensures r.state == s.(jobs := r.state.jobs)
    ensures Valid(s) ==> Valid(r.state)
  {
    Step(s.(jobs := s.jobs[JOB_ID_CHARGING := ChargingJob][JOB_ID_NOT_CHARGING := UnconstrainedJob]), [ScheduleJobs])
  }

  /** The jobs registered from a valid state are exactly the app's two, and
      scheduling again leaves them as they are. */
  lemma ScheduleExact(s: State)
    requires Valid(s)
    ensures Schedule(s).state.jobs == map[JOB_ID_CHARGING := ChargingJob, JOB_ID_NOT_CHARGING := UnconstrainedJob]
    ensures Schedule(Schedule(s).state).state == Schedule(s).state
  {
  }

  /** `onStartJob`: renders first, then starts the service when charging and
      stops it otherwise, then re-schedules both jobs; reports the job as
      finished (`false`). */
  function OnStartJob(s: State, env: Env): (r: Reply<bool>)
    ensures !r.value
    ensures |r.step.effects| >= 1 && r.step.effects[0] == Render(env.widgets)
    ensures r.step.effects[|r.step.effects| - 1] == ScheduleJobs
    ensures Telemetry.ChargingRule(env.probe) ==>
      r.step.effects == RenderAll(env) + UpdateService.Start(s, env).effects + [ScheduleJobs]
    ensures !Telemetry.ChargingRule(env.probe) ==>
      r.step.effects == RenderAll(env) + [StopService, ScheduleJobs] && !r.step.state.serviceRunning
    ensures {JOB_ID_CHARGING, JOB_ID_NOT_CHARGING} <= r.step.state.jobs.Keys
    ensures r.step.state.jobs == Schedule(s).state.jobs && r.step.state.periodicWork == s.periodicWork
    ensures r.step.state.serviceRunning ==
      (Telemetry.ChargingRule(env.probe) && (s.serviceRunning || env.foregroundStartAllowed))
    ensures Telemetry.ChargingRule(env.probe) ==> r.step.state.loops == s.loops
    ensures Valid(s) ==> Valid(r.step.state)
  {
    var charging := Telemetry.ChargingRule(env.probe);
    var toggled := if charging then UpdateService.Start(s, env) else UpdateService.Stop(s);
    var rescheduled := Schedule(toggled.state);
    Reply(Step(rescheduled.state, RenderAll(env) + toggled.effects + rescheduled.effects), false)
  }

  /** `onStopJob`: asks the scheduler to retry, so the job stays registered;
      nothing else happens. */
  function OnStopJob(s: State): (r: Reply<bool>)
    ensures r.value
    ensures r.step == Step(s, [])
  {
    Reply(Step(s, []), true)
  }

  /** Whatever the device reports, a job run leaves the service in the state
      the charging rule asks for (when the platform allows the start). */
  lemma JobRunFollowsRule(s: State, env: Env)
    requires env.foregroundStartAllowed
    ensures OnStartJob(s, env).step.state.serviceRunning == Telemetry.ChargingRule(env.probe)
  {
  }
}

=== FILE: main_activity.dfy ===
/**
  The launch path of `MainActivity`: notification-permission gating, then
  scheduling the backstops, drawing the widgets and starting the service if
  the device is charging.
*/
module MainActivity {
  import opened RefreshState
  import Telemetry
  import UpdateService
  import JobService
  import CheckWorker

  /** API level of Android 13, from which notifications need a runtime
      permission. */
  const TIRAMISU: int := 33

  /** `startServiceIfCharging`: starts the service exactly when charging and
      says whether it did. */
  function StartServiceIfCharging(s: State, env: Env): (r: Reply<bool>)
    ensures r.value == Telemetry.ChargingRule(env.probe)
    ensures r.value ==> r.step == UpdateService.Start(s, env)
    ensures !r.value ==> r.step == Step(s, [])
  {
    if Telemetry.ChargingRule(env.probe) then Reply(UpdateService.Start(s, env), true)
    else Reply(Step(s, []), false)
  }

  /** `initializeAndStartService`: schedule jobs, schedule the worker, draw
      the widgets, then start the service only if charging. */
  function InitializeAndStartService(s: State, env: Env): (r: Step)
    ensures |r.effects| >= 3 && r.effects[..3] == [ScheduleJobs, ScheduleWorker, Render(env.widgets)]
    ensures r.effects[3..] == (if Telemetry.ChargingRule(env.probe) then UpdateService.Start(s, env).effects else [])
    ensures {JOB_ID_CHARGING, JOB_ID_NOT_CHARGING} <= r.state.jobs.Keys && WORK_NAME in r.state.periodicWork
    ensures r.state.serviceRunning == (s.serviceRunning || (Telemetry.ChargingRule(env.probe) && env.foregroundStartAllowed))
    ensures r.state.loops == s.loops
    ensures r.state.jobs == JobService.Schedule(s).state.jobs
    ensures r.state.periodicWork == CheckWorker.Schedule(JobService.Schedule(s).state).state.periodicWork
    ensures Valid(s) ==> Valid(r.state)
  {
    var jobs := JobService.Schedule(s);
    var work := CheckWorker.Schedule(jobs.state);
    var started := StartServiceIfCharging(work.state, env);
    Step(started.step.state, jobs.effects + work.effects + RenderAll(env) + started.step.effects)
  }

  /** The permission check of `onCreate`: from Android 13 on, initialization
      runs at once only with the permission already granted; otherwise the
      permission is requested and initialization waits for the answer. */
  function OnCreate(s: State, sdkInt: int, permissionGranted: bool, env: Env): (r: Step)
    ensures sdkInt < TIRAMISU || permissionGranted ==> r == InitializeAndStartService(s, env)
    ensures sdkInt >= TIRAMISU && !permissionGranted ==> r == Step(s, [RequestNotificationPermission])
    ensures Valid(s) ==> Valid(r.state)
  {
    if sdkInt >= TIRAMISU && !permissionGranted then Step(s, [RequestNotificationPermission])
    else InitializeAndStartService(s, env)
  }

  /** The permission-request callback: initializes on a grant; a denial
      leaves everything as it was. */
  function OnPermissionResult(s: State, isGranted: bool, env: Env): (r: Step)
    ensures isGranted ==> r == InitializeAndStartService(s, env)
    ensures !isGranted ==> r == Step(s, [])
    ensures Valid(s) ==> Valid(r.state)
  {
    if isGranted then InitializeAndStartService(s, env) else Step(s, [])
  }

  /** Initialization happens on launch exactly when no permission is needed
      or it is already held; a request followed by a denial initializes
      nothing and schedules nothing. */
  lemma PermissionGating(s: State, sdkInt: int, granted: bool, env: Env)
    ensures ScheduleJobs in OnCreate(s, sdkInt, granted, env).effects <==> (sdkInt < TIRAMISU || granted)
    ensures sdkInt >= TIRAMISU && !granted ==>
      OnPermissionResult(OnCreate(s, sdkInt, granted, env).state, false, env) == Step(s, [])
  {
  }
}

=== FILE: receivers.dfy ===
/**
  `ChargingStateReceiver`: the manifest receiver for power connected and
  disconnected broadcasts. It acts on the action alone, without checking the
  charging state.
*/
module PowerReceiver {
  import opened RefreshState
  import UpdateService

  /** `onReceive`: connected renders then starts the service; disconnected
      stops the service then renders; any other action does nothing. */
  function OnReceive(s: State, action: Action, env: Env): (r: Step)
    ensures action.PowerConnected? ==>
      r.effects == RenderAll(env) + UpdateService.Start(s, env).effects &&
      r.state == UpdateService.Start(s, env).state
    ensures action.PowerDisconnected? ==>
      r.effects == [StopService] + RenderAll(env) &&
      r.state == UpdateService.Stop(s).state && !r.state.serviceRunning
    ensures !action.PowerConnected? && !action.PowerDisconnected? ==> r == Step(s, [])
    ensures Valid(s) ==> Valid(r.state)
  {
    match action
    case PowerConnected =>
      var started := UpdateService.Start(s, env);
      Step(started.state, RenderAll(env) + started.effects)
    case PowerDisconnected =>
      var stopped := UpdateService.Stop(s);
      Step(stopped.state, stopped.effects + RenderAll(env))
    case _ => Step(s, [])
  }

  /** A handled action draws the widgets once of its own; a connect whose
      foreground start is refused draws a second time through the start
      fallback. */
  lemma OneRenderPerBroadcast(s: State, action: Action, env: Env)
    requires action.PowerConnected? || action.PowerDisconnected?
    ensures env.foregroundStartAllowed || action.PowerDisconnected? ==> Renders(OnReceive(s, action, env).effects) == 1
    ensures !env.foregroundStartAllowed && action.PowerConnected? ==> Renders(OnReceive(s, action, env).effects) == 2
  {
  }

  /** The charging probe plays no part: only the action decides. */
  lemma IgnoresChargingState(s: State, action: Action, env: Env, env': Env)
    requires env'.widgets == env.widgets && env'.foregroundStartAllowed == env.foregroundStartAllowed
    ensures OnReceive(s, action, env) == OnReceive(s, action, env')
  {
  }
}

/**
  `BootReceiver`: on boot, starts the service if the device is charging.
*/
module BootReceiver {
  import opened RefreshState
  import Telemetry
  import UpdateService

  /** `onReceive`: BOOT_COMPLETED while charging starts the service; every
      other case does nothing. */
  function OnReceive(s: State, action: Action, env: Env): (r: Step)
    ensures action.BootCompleted? && Telemetry.ChargingRule(env.probe) ==> r == UpdateService.Start(s, env)
    ensures !action.BootCompleted? || !Telemetry.ChargingRule(env.probe) ==> r == Step(s, [])
    ensures Valid(s) ==> Valid(r.state)
  {
    if action.BootCompleted? && Telemetry.ChargingRule(env.probe) then UpdateService.Start(s, env)
    else Step(s, [])
  }

  /** Boot draws nothing of its own and schedules nothing: a render can only
      come from the start fallback, and jobs and work are untouched. */
  lemma BootOnlyStarts(s: State, action: Action, env: Env)
    ensures var r := OnReceive(s, action, env);
      && r.state.jobs == s.jobs && r.state.periodicWork == s.periodicWork
      && ScheduleJobs !in r.effects && ScheduleWorker !in r.effects && StopService !in r.effects
      && (env.foregroundStartAllowed ==> Renders(r.effects) == 0)
  {
  }
}

=== FILE: refresh.dfy ===
/**
  The refresh orchestration as one state machine: every trigger the platform
  can deliver, dispatched to the handler that models it, and runs of any
  length over them.
*/
module Refresh {
  import opened RefreshState
  import Telemetry
  import UpdateService
  import JobService
  import CheckWorker
  import PowerReceiver
  import BootReceiver
  import WidgetProvider
  import MainActivity

  /** Everything the platform can deliver to the app. */
  datatype Event =
    | PowerBroadcast(action: Action)            // ChargingStateReceiver
    | BootBroadcast(action: Action)             // BootReceiver
    | JobStarted                                // either scheduled job fires
    | JobStopped
    | WorkerRan                                 // the periodic worker
    | WidgetsUpdated(widgetIds: seq<int>)       // widget host callbacks
    | WidgetsEnabled
    | WidgetsDisabled
    | ServiceStartCommand                       // the service's own callbacks
    | ServiceLoopTick
    | ServicePowerDisconnected
    | ServiceDestroyed                          // the platform or the user ends the service
    | ProcessKilled                             // the process dies; the sticky service stays started
    | AppLaunched(sdkInt: int, permissionGranted: bool)
    | PermissionAnswered(granted: bool)

  /** One event handled by its handler. A start command reaches the service
      only after a start request, so it is delivered only while the service
      is started. The service's own disconnect receiver is registered when
      the service is created in a live process, which is when its loop is
      launched, so that receiver fires only while a loop is alive. */
  function Handle(s: State, e: Event, env: Env): (r: Step)
    ensures Valid(s) ==> Valid(r.state)
  {
    match e
    case PowerBroadcast(action) => PowerReceiver.OnReceive(s, action, env)
    case BootBroadcast(action) => BootReceiver.OnReceive(s, action, env)
    case JobStarted => JobService.OnStartJob(s, env).step
    case JobStopped => JobService.OnStopJob(s).step
    case WorkerRan => CheckWorker.DoWork(s, env).step
    case WidgetsUpdated(ids) => WidgetProvider.OnUpdate(s, ids, env)
    case WidgetsEnabled => WidgetProvider.OnEnabled(s, env)
    case WidgetsDisabled => WidgetProvider.OnDisabled(s)
    case ServiceStartCommand =>
      if s.serviceRunning then UpdateService.OnStartCommand(s, env) else Step(s, [])
    case ServiceLoopTick => UpdateService.LoopTick(s, env)
    case ServicePowerDisconnected =>
      if s.loops > 0 then UpdateService.OnPowerDisconnected(s, env) else Step(s, [])
    case ServiceDestroyed => Step(UpdateService.Destroy(s), [])
    case ProcessKilled => Step(s.(loops := 0), [])
    case AppLaunched(sdkInt, granted) => MainActivity.OnCreate(s, sdkInt, granted, env)
    case PermissionAnswered(granted) => MainActivity.OnPermissionResult(s, granted, env)
  }

  /** Events handled one after another, each with what it observed; the
      traces are concatenated in order. */
  function Run(s: State, events: seq<(Event, Env)>): (r: Step)
    decreases |events|
  {
    if events == [] then Step(s, [])
    else
      var first := Handle(s, events[0].0, events[0].1);
      var rest := Run(first.state, events[1..]);
      Step(rest.state, first.effects + rest.effects)
  }

  /** Every run keeps the invariant. */
  lemma {:induction false} RunPreservesValid(s: State, events: seq<(Event, Env)>)
    requires Valid(s)
    ensures Valid(Run(s, events).state)
    decreases |events|
  {
    if events != [] {
      RunPreservesValid(Handle(s, events[0].0, events[0].1).state, events[1..]);
    }
  }

  /** Whatever happens from a fresh install, there is never more than one
      polling loop, and a loop lives only inside a running service. */
  lemma AtMostOneLoop(events: seq<(Event, Env)>)
    ensures Run(Initial, events).state.loops <= 1
    ensures Run(Initial, events).state.loops == 1 ==> Run(Initial, events).state.serviceRunning
  {
    RunPreservesValid(Initial, events);
  }

  /** Plugging in twice starts one session; unplugging ends it with a final
      drawing pass. */
  lemma ConnectTwiceThenDisconnect(env: Env)
    requires env.foregroundStartAllowed
    ensures var connected := Run(Initial, [(PowerBroadcast(PowerConnected), env), (ServiceStartCommand, env),
                                           (PowerBroadcast(PowerConnected), env), (ServiceStartCommand, env)]);
      && connected.state.serviceRunning && connected.state.loops == 1
      && var unplugged := Handle(connected.state, PowerBroadcast(PowerDisconnected), env);
      && !unplugged.state.serviceRunning && unplugged.state.loops == 0
      && unplugged.effects == [StopService, Render(env.widgets)]
  {
    var events := [(PowerBroadcast(PowerConnected), env), (ServiceStartCommand, env),
                   (PowerBroadcast(PowerConnected), env), (ServiceStartCommand, env)];
    var s1 := Handle(Initial, PowerBroadcast(PowerConnected), env).state;
    var s2 := Handle(s1, ServiceStartCommand, env).state;
    var s3 := Handle(s2, PowerBroadcast(PowerConnected), env).state;
    var s4 := Handle(s3, ServiceStartCommand, env).state;
    assert s2.loops == 1 && s4.loops == 1 && s4.serviceRunning;
    assert Run(s3, events[3..]).state == s4;
    assert events[2..][1..] == events[3..];
    assert Run(s2, events[2..]).state == s4;
    assert events[1..][1..] == events[2..];
    assert Run(s1, events[1..]).state == s4;
  }

  /** `START_STICKY`: after the process is killed, the platform delivers a
      new start command to the still-started service, and the session
      resumes with exactly one loop and one fresh drawing pass. */
  lemma StickyRestart(s: State, env: Env)
    requires Valid(s) && s.serviceRunning
    ensures Run(s, [(ProcessKilled, env), (ServiceStartCommand, env)]).state == s.(loops := 1)
    ensures Run(s, [(ProcessKilled, env), (ServiceStartCommand, env)]).effects == RenderAll(env)
  {
    var events := [(ProcessKilled, env), (ServiceStartCommand, env)];
    var killed := Handle(s, ProcessKilled, env).state;
    assert events[1..] == [(ServiceStartCommand, env)];
    assert Run(killed, events[1..]) == Step(killed.(loops := 1), RenderAll(env));
  }

  /** Before the service is created, and after its process is killed, there
      is no disconnect receiver: the event changes nothing. */
  lemma NoReceiverWithoutLoop(s: State, env: Env)
    requires s.loops == 0
    ensures Handle(s, ServicePowerDisconnected, env) == Step(s, [])
    ensures Handle(Handle(s, ProcessKilled, env).state, ServicePowerDisconnected, env) == Step(s, [])
  {
  }

  /** A periodic check while idle and not charging draws the widgets and
      starts nothing. */
  lemma IdleCheckOnlyRenders(s: State, env: Env)
    requires Valid(s) && !s.serviceRunning && !Telemetry.ChargingRule(env.probe)
    ensures Handle(s, WorkerRan, env) == Step(s, [Render(env.widgets)])
    ensures Handle(s, ServiceLoopTick, env) == Step(s, [])
  {
  }

  /** Every handler looks at the device only through the one two-tier rule:
      two observations the rule cannot tell apart lead to the same outcome. */
  lemma ProbeOnlyThroughRule(s: State, e: Event, env: Env, env': Env)
    requires env'.widgets == env.widgets && env'.foregroundStartAllowed == env.foregroundStartAllowed
    requires Telemetry.ChargingRule(env'.probe) == Telemetry.ChargingRule(env.probe)
    ensures Handle(s, e, env') == Handle(s, e, env)
  {
  }
}

=== FILE: refresh_state.dfy ===
/**
  The state and effects shared by every trigger handler of the refresh
  orchestration.

  A handler is a pure function from the current state and what it observes
  (`Env`) to the next state and the trace of calls it makes (`Step`). The
  trace records calls in order; the state records their consequences.
*/
module RefreshState {
  import Telemetry

  /** A job registered with the job scheduler. */
  datatype JobSpec = JobSpec(requiresCharging: bool, persisted: bool)

  datatype State = State(
    serviceRunning: bool,              // WidgetUpdateService is started
    loops: nat,                        // live polling coroutines
    jobs: map<int, JobSpec>,           // job id -> job, as the scheduler holds them
    periodicWork: map<string, nat>)    // unique work name -> repeat interval in minutes

  /** A call a handler makes, in the order it makes it. */
  datatype Effect =
    | Render(widgetIds: seq<int>)      // one drawing pass over these widgets
    | StartService
    | StopService
    | ScheduleJobs
    | ScheduleWorker
    | RequestNotificationPermission

  /** What a handler observes: the inputs of the charging check, the widgets
      installed, and whether the platform accepts a foreground-service start. */
  datatype Env = Env(probe: Telemetry.Probe, widgets: seq<int>, foregroundStartAllowed: bool)

  /** A handler's outcome. */
  datatype Step = Step(state: State, effects: seq<Effect>)

  /** A handler's outcome together with the value it returns to the platform. */
  datatype Reply<T> = Reply(step: Step, value: T)

  /** Broadcast actions the receivers distinguish. */
  datatype Action =
    | PowerConnected
    | PowerDisconnected
    | BootCompleted
    | OtherAction(name: string)

  const JOB_ID_CHARGING: int := 1001
  const JOB_ID_NOT_CHARGING: int := 1002
  const WORK_NAME: string := "charging_check_worker"
  const WORK_REPEAT_MINUTES: nat := 15

  /** Nothing is running or scheduled. */
  const Initial: State := State(false, 0, map[], map[])

  /** What every reachable state satisfies: at most one polling loop, and
      only while the service runs; only the app's own jobs and work are
      registered. */
  predicate Valid(s: State) {
    && s.loops <= 1
    && (s.loops > 0 ==> s.serviceRunning)
    && s.jobs.Keys <= {JOB_ID_CHARGING, JOB_ID_NOT_CHARGING}
    && s.periodicWork.Keys <= {WORK_NAME}
  }

  /** One drawing pass over the installed widgets. */
  function RenderAll(env: Env): seq<Effect> {
    [Render(env.widgets)]
  }

  /** The number of drawing passes in a trace. */
  function Renders(effects: seq<Effect>): (n: nat)
    ensures n <= |effects|
    ensures n == 0 <==> forall i :: 0 <= i < |effects| ==> !effects[i].Render?
  {
    if effects == [] then 0
    else (if effects[0].Render? then 1 else 0) + Renders(effects[1..])
  }

  /** Counting is additive over concatenated traces. */
  lemma {:induction false} RendersAppend(a: seq<Effect>, b: seq<Effect>)
    ensures Renders(a + b) == Renders(a) + Renders(b)
  {
    if a == [] {
      assert a + b == b;
    } else {
      assert (a + b)[1..] == a[1..] + b;
      RendersAppend(a[1..], b);
    }
  }
}

=== FILE: store.dfy ===
/**
  `BatteryStateStore`: the last-known charging state, kept as a small JSON
  object in one file.

  The file is abstract: either absent, present but unreadable or unparsable,
  or a parsed object mapping keys to JSON values. `save` writes five fields
  of a `ChargingInfo`; `load` reads them back with a default per field, and
  falls back to the all-default record on any failure.
*/
module StateStore {
  import opened Telemetry

  /** A JSON value as the object's typed `opt*` accessors see it. */
  datatype Value =
    | JBool(b: bool)
    | JInt(i: int)
    | JReal(x: real)
    | JString(s: string)

  /** The state file. */
  datatype StateFile =
    | NoFile
    | Corrupt                           // reading or parsing throws
    | Json(fields: map<string, Value>)

  const KEY_IS_CHARGING: string := "isCharging"
  const KEY_WATTAGE: string := "wattage"
  const KEY_BATTERY_PERCENT: string := "batteryPercent"
  const KEY_CURRENT_MA: string := "currentMa"
  const KEY_CHARGING_TYPE: string := "chargingType"

  /** `defaultInfo()`: zero, false and "Not Charging" everywhere. */
  function DefaultInfo(): (d: ChargingInfo)
    ensures d.wattage == 0.0 && d.currentMa == 0 && d.voltageMv == 0
    ensures d.batteryPercent == 0 && !d.isCharging && d.temperature == 0.0
    ensures d.chargingType == NOT_CHARGING
  {
    ChargingInfo(0.0, 0, 0, 0, false, NOT_CHARGING, 0.0)
  }

  /** What survives a save: the five persisted fields, with voltage and
      temperature zeroed. */
  function Persisted(info: ChargingInfo): ChargingInfo {
    info.(voltageMv := 0, temperature := 0.0)
  }

  /** Kotlin's `Double.toInt()`, which truncates toward zero. */
  function TruncateReal(x: real): int {
    if x >= 0.0 then x.Floor else -((-x).Floor)
  }

  /** `optDouble(key, default)`: any JSON number, else the default. */
  function OptDouble(m: map<string, Value>, key: string, default: real): real {
    if key !in m then default
    else match m[key]
      case JReal(x) => x
      case JInt(i) => i as real
      case _ => default
  }

  /** `optInt(key, default)`: any JSON number, a fractional one truncated,
      else the default. */
  function OptInt(m: map<string, Value>, key: string, default: int): int {
    if key !in m then default
    else match m[key]
      case JInt(i) => i
      case JReal(x) => TruncateReal(x)
      case _ => default
  }

  /** `optBoolean(key, default)`. */
  function OptBoolean(m: map<string, Value>, key: string, default: bool): bool {
    if key in m && m[key].JBool? then m[key].b else default
  }

  /** `optString(key, default)`. */
  function OptString(m: map<string, Value>, key: string, default: string): string {
    if key in m && m[key].JString? then m[key].s else default
  }

  /** The object `save` builds from a `ChargingInfo`. */
  function Encode(info: ChargingInfo): (m: map<string, Value>)
    ensures m.Keys == {KEY_IS_CHARGING, KEY_WATTAGE, KEY_BATTERY_PERCENT, KEY_CURRENT_MA, KEY_CHARGING_TYPE}
  {
    map[
      KEY_IS_CHARGING := JBool(info.isCharging),
      KEY_WATTAGE := JReal(info.wattage),
      KEY_BATTERY_PERCENT := JInt(info.batteryPercent),
      KEY_CURRENT_MA := JInt(info.currentMa),
      KEY_CHARGING_TYPE := JString(info.chargingType)]
  }

  /** `save(info)`: replaces the whole file with the five fields; a failed
      write is ignored. The write is taken to be atomic: it either completes
      or leaves the file as it was. */
  function Save(f: StateFile, info: ChargingInfo, writeSucceeds: bool): (f': StateFile)
    ensures writeSucceeds ==> f'.Json? && Load(f') == Persisted(info)
    ensures !writeSucceeds ==> f' == f
  {
    if writeSucceeds then Json(Encode(info)) else f
  }

  /** `load()`: each field read with its own default; no file, or a file
      that cannot be read or parsed, gives `DefaultInfo()`. Never fails. */
  function Load(f: StateFile): (info: ChargingInfo)
    ensures info.voltageMv == 0 && info.temperature == 0.0
    ensures !f.Json? ==> info == DefaultInfo()
  {
    match f
    case NoFile => DefaultInfo()
    case Corrupt => DefaultInfo()
    case Json(m) =>
      ChargingInfo(
        wattage := OptDouble(m, KEY_WATTAGE, 0.0),
        currentMa := OptInt(m, KEY_CURRENT_MA, 0),
        voltageMv := 0,
        batteryPercent := OptInt(m, KEY_BATTERY_PERCENT, 0),
        isCharging := OptBoolean(m, KEY_IS_CHARGING, false),
        chargingType := OptString(m, KEY_CHARGING_TYPE, NOT_CHARGING),
        temperature := 0.0)
  }

  /** Round trip: a successful save followed by a load gives back the five
      persisted fields, with voltage and temperature 0. */
  lemma LoadAfterSave(f: StateFile, info: ChargingInfo)
    ensures Load(Save(f, info, true)) == Persisted(info)
  {
  }

  /** A save replaces everything written before it. */
  lemma LastSaveWins(f: StateFile, a: ChargingInfo, b: ChargingInfo)
    ensures Load(Save(Save(f, a, true), b, true)) == Persisted(b)
  {
  }

  /** Under the atomic write, a failed save is invisible to the next load. */
  lemma FailedSaveInvisible(f: StateFile, info: ChargingInfo)
    ensures Load(Save(f, info, false)) == Load(f)
  {
  }

  /** Each missing key falls back to its own default, whatever the other keys
      hold. */
  lemma MissingKeyDefaults(m: map<string, Value>)
    ensures KEY_WATTAGE !in m ==> Load(Json(m)).wattage == 0.0
    ensures KEY_CURRENT_MA !in m ==> Load(Json(m)).currentMa == 0
    ensures KEY_BATTERY_PERCENT !in m ==> Load(Json(m)).batteryPercent == 0
    ensures KEY_IS_CHARGING !in m ==> !Load(Json(m)).isCharging
    ensures KEY_CHARGING_TYPE !in m ==> Load(Json(m)).chargingType == NOT_CHARGING
  {
  }

  /** A field is read from its own key only: two objects that agree on a key
      load the same value for that field. */
  lemma FieldsIndependent(m1: map<string, Value>, m2: map<string, Value>)
    ensures (KEY_WATTAGE in m1 <==> KEY_WATTAGE in m2) &&
            (KEY_WATTAGE in m1 ==> m1[KEY_WATTAGE] == m2[KEY_WATTAGE]) ==>
            Load(Json(m1)).wattage == Load(Json(m2)).wattage
    ensures (KEY_CURRENT_MA in m1 <==> KEY_CURRENT_MA in m2) &&
            (KEY_CURRENT_MA in m1 ==> m1[KEY_CURRENT_MA] == m2[KEY_CURRENT_MA]) ==>
            Load(Json(m1)).currentMa == Load(Json(m2)).currentMa
    ensures (KEY_BATTERY_PERCENT in m1 <==> KEY_BATTERY_PERCENT in m2) &&
            (KEY_BATTERY_PERCENT in m1 ==> m1[KEY_BATTERY_PERCENT] == m2[KEY_BATTERY_PERCENT]) ==>
            Load(Json(m1)).batteryPercent == Load(Json(m2)).batteryPercent
    ensures (KEY_IS_CHARGING in m1 <==> KEY_IS_CHARGING in m2) &&
            (KEY_IS_CHARGING in m1 ==> m1[KEY_IS_CHARGING] == m2[KEY_IS_CHARGING]) ==>
            Load(Json(m1)).isCharging == Load(Json(m2)).isCharging
    ensures (KEY_CHARGING_TYPE in m1 <==> KEY_CHARGING_TYPE in m2) &&
            (KEY_CHARGING_TYPE in m1 ==> m1[KEY_CHARGING_TYPE] == m2[KEY_CHARGING_TYPE]) ==>
            Load(Json(m1)).chargingType == Load(Json(m2)).chargingType
  {
  }

  /** Saving what the reconciler produced and loading it back keeps the
      reconciler's guarantees: no power shown while not charging, and the
      charging label agrees with the flag. */
  lemma LoadedSnapshotConsistent(f: StateFile, rd: Readings)
    ensures var info := Load(Save(f, GetChargingInfo(rd), true));
      && info.isCharging == ChargingRule(rd.probe)
      && info.wattage >= 0.0
      && (!info.isCharging ==> info.wattage == 0.0)
      && (info.chargingType == NOT_CHARGING <==> !info.isCharging)
  {
  }
}

=== FILE: sysfs.dfy ===
/**
  Reading one integer from a power-supply attribute file under /sys.

  A file is read only when it exists and is readable; its text is trimmed and
  parsed the way Kotlin's `String.trim()` and `String.toIntOrNull()` do. Every
  failure -- missing file, no read permission, an exception while reading,
  text that is not a 32-bit decimal integer -- yields "no value".
*/
module SysFs {
  import opened Wrappers

  /** What the reader finds at a path that exists. */
  datatype SysFile =
    | Unreadable          // exists, but `canRead()` is false
    | ReadError           // `readText()` throws
    | Text(content: string)

  /** The device's file system as far as the reader can see it: a path that
      is not a key does not exist. */
  type FileSystem = map<string, SysFile>

  /** Bounds of Kotlin's 32-bit `Int`. */
  const INT_MIN: int := -0x8000_0000
  const INT_MAX: int := 0x7fff_ffff

  predicate InIntRange(n: int) {
    INT_MIN <= n <= INT_MAX
  }

  /** The ASCII characters Kotlin's `Char.isWhitespace()` accepts: TAB, LF,
      VT, FF, CR, the four information separators and SPACE. */
  predicate IsWhitespace(c: char) {
    ('\t' <= c <= '\r') || ('\U{1C}' <= c <= ' ')
  }

  predicate IsDigit(c: char) {
    '0' <= c <= '9'
  }

  predicate AllDigits(s: string) {
    forall i :: 0 <= i < |s| ==> IsDigit(s[i])
  }

  /** Drops leading whitespace. */
  function TrimStart(s: string): (r: string)
    ensures |r| <= |s| && r == s[|s| - |r|..]
    ensures forall i :: 0 <= i < |s| - |r| ==> IsWhitespace(s[i])
    ensures r == [] || !IsWhitespace(r[0])
  {
    if |s| > 0 && IsWhitespace(s[0]) then TrimStart(s[1..]) else s
  }

  /** Drops trailing whitespace. */
  function TrimEnd(s: string): (r: string)
    ensures |r| <= |s| && r == s[..|r|]
    ensures forall i :: |r| <= i < |s| ==> IsWhitespace(s[i])
    ensures r == [] || !IsWhitespace(r[|r| - 1])
  {
    if |s| > 0 && IsWhitespace(s[|s| - 1]) then TrimEnd(s[..|s| - 1]) else s
  }

  /** `r` is `s` from index `a` on, with only whitespace around it. */
  predicate InnerSlice(s: string, a: int, r: string) {
    && 0 <= a && a + |r| <= |s| && r == s[a..a + |r|]
    && (forall i :: 0 <= i < a ==> IsWhitespace(s[i]))
    && (forall i :: a + |r| <= i < |s| ==> IsWhitespace(s[i]))
  }

  /** `String.trim()`: the text without whitespace at either end. The result
      is a slice of `s` with only whitespace before and after it. */
  function Trim(s: string): (r: string)
    ensures r == [] || (!IsWhitespace(r[0]) && !IsWhitespace(r[|r| - 1]))
    ensures InnerSlice(s, |s| - |TrimStart(s)|, r)
  {
    var t := TrimStart(s);
    var r := TrimEnd(t);
    TrimIsInnerSlice(s, t, r);
    r
  }

  /** Cutting a whitespace prefix from `s`, giving `t`, and then a whitespace
      suffix from `t`, giving `r`, leaves `r` as an inner slice of `s`. */
  lemma TrimIsInnerSlice(s: string, t: string, r: string)
    requires |t| <= |s| && t == s[|s| - |t|..]
    requires forall i :: 0 <= i < |s| - |t| ==> IsWhitespace(s[i])
    requires |r| <= |t| && r == t[..|r|]
    requires forall i :: |r| <= i < |t| ==> IsWhitespace(t[i])
    ensures InnerSlice(s, |s| - |t|, r)
  {
    var a := |s| - |t|;
    assert r == s[a..a + |r|];
    forall i | a + |r| <= i < |s|
      ensures IsWhitespace(s[i])
    {
      assert s[i] == t[i - a];
    }
  }

  /** The number a string of decimal digits denotes. */
  function DigitsValue(s: string): (n: nat)
    requires AllDigits(s)
  {
    if s == [] then 0
    else DigitsValue(s[..|s| - 1]) * 10 + (s[|s| - 1] as int - '0' as int)
  }

  /** Text `toIntOrNull` can accept: an optional sign followed by at least one
      decimal digit. */
  predicate IntegerText(s: string) {
    || (|s| >= 1 && AllDigits(s))
    || (|s| >= 2 && (s[0] == '-' || s[0] == '+') && AllDigits(s[1..]))
  }

  /** The signed number integer text denotes, without any range limit. */
  function TextValue(s: string): int
    requires IntegerText(s)
  {
    if s[0] == '-' then 0 - DigitsValue(s[1..])
    else if s[0] == '+' then DigitsValue(s[1..])
    else DigitsValue(s)
  }

  /** `String.toIntOrNull()` in radix 10: a value exactly when the text is an
      optionally signed decimal integer that fits in 32 bits. Leading zeros,
      a '+' sign and "-0" are accepted. */
  function ParseInt(s: string): (r: Option<int>)
    ensures r.Some? ==> IntegerText(s) && InIntRange(r.value) && r.value == TextValue(s)
    ensures r.Some? && s[0] == '-' ==> r.value <= 0
    ensures r.Some? && s[0] != '-' ==> r.value >= 0
    ensures IntegerText(s) && InIntRange(TextValue(s)) ==> r == Some(TextValue(s))
    ensures |s| >= 1 && AllDigits(s) && DigitsValue(s) <= INT_MAX ==> r == Some(DigitsValue(s))
    ensures |s| >= 2 && s[0] == '+' && AllDigits(s[1..]) && DigitsValue(s[1..]) <= INT_MAX ==>
      r == Some(DigitsValue(s[1..]))
    ensures |s| >= 2 && s[0] == '-' && AllDigits(s[1..]) && DigitsValue(s[1..]) <= -INT_MIN ==>
      r == Some(0 - DigitsValue(s[1..]))
  {
    if |s| == 0 then None
    else if s[0] == '-' || s[0] == '+' then
      var digits := s[1..];
      if |digits| == 0 || !AllDigits(digits) then None
      else
        var magnitude: int := DigitsValue(digits);
        var v := if s[0] == '-' then -magnitude else magnitude;
        if InIntRange(v) then Some(v) else None
    else if AllDigits(s) && DigitsValue(s) <= INT_MAX then Some(DigitsValue(s))
    else None
  }

  /** `readSysFile(path)`: the trimmed integer content of the file at `path`,
      or no value on any failure. */
  function ReadSysFile(fs: FileSystem, path: string): (r: Option<int>)
    ensures path !in fs ==> r == None
    ensures r.Some? ==> path in fs && fs[path].Text? && IntegerText(Trim(fs[path].content))
    ensures r.Some? ==> InIntRange(r.value) && r.value == TextValue(Trim(fs[path].content))
    ensures path in fs && fs[path].Text? && IntegerText(Trim(fs[path].content))
            && InIntRange(TextValue(Trim(fs[path].content))) ==>
      r == Some(TextValue(Trim(fs[path].content)))
  {
    if path !in fs then None
    else
      match fs[path]
      case Unreadable => None
      case ReadError => None
      case Text(content) => ParseInt(Trim(content))
  }

  /** Decimal text of a natural number, most significant digit first. */
  function FormatNat(n: nat): (s: string)
    ensures |s| >= 1 && AllDigits(s)
  {
    var d := ['0' + (n % 10) as char];
    if n < 10 then d else FormatNat(n / 10) + d
  }

  /** Decimal text of an integer, with a leading '-' when negative. */
  function FormatInt(n: int): (s: string)
    ensures |s| >= 1
  {
    if n < 0 then "-" + FormatNat(-n) else FormatNat(n)
  }

  lemma {:induction false} DigitsValueFormatNat(n: nat)
    ensures DigitsValue(FormatNat(n)) == n
  {
    var s := FormatNat(n);
    if n >= 10 {
      var p := FormatNat(n / 10);
      assert s == p + [s[|s| - 1]];
      assert s[..|s| - 1] == p;
      DigitsValueFormatNat(n / 10);
    }
  }

  /** Parsing undoes formatting for every 32-bit integer. */
  lemma ParseFormatInt(n: int)
    requires InIntRange(n)
    ensures ParseInt(FormatInt(n)) == Some(n)
  {
    if n < 0 {
      var s := FormatInt(n);
      assert s[1..] == FormatNat(-n);
      DigitsValueFormatNat(-n);
    } else {
      DigitsValueFormatNat(n);
    }
  }

  /** Trimming leaves alone text that has no whitespace at its ends. */
  lemma TrimNoWhitespace(s: string)
    requires |s| >= 1 && !IsWhitespace(s[0]) && !IsWhitespace(s[|s| - 1])
    ensures Trim(s) == s
  {
  }

  /** The usual sysfs format -- the number followed by a newline -- reads back
      as that number. */
  lemma ReadFormattedFile(fs: FileSystem, path: string, n: int)
    requires InIntRange(n)
    requires path in fs && fs[path] == Text(FormatInt(n) + "\n")
    ensures ReadSysFile(fs, path) == Some(n)
  {
    var s := FormatInt(n);
    var t := s + "\n";
    assert !IsWhitespace(s[0]) && !IsWhitespace(s[|s| - 1]);
    assert t[0] == s[0];
    assert TrimStart(t) == t;
    assert t[..|t| - 1] == s;
    assert TrimEnd(t) == TrimEnd(s);
    TrimNoWhitespace(s);
    ParseFormatInt(n);
  }
}

=== FILE: telemetry.dfy ===
/**
  The telemetry reconciler of `ChargingDataProvider`: one `ChargingInfo` from a
  bundle of raw readings, through ordered fallback chains.

  The platform is replaced by plain inputs: the `BatteryManager` flag and
  properties are values, the sticky ACTION_BATTERY_CHANGED intent is an
  optional map of integer extras, and the /sys tree is a `SysFs.FileSystem`.
*/
module Telemetry {
  import opened Wrappers
  import opened SysFs

  /** `BatteryManager` constants. */
  const BATTERY_STATUS_CHARGING: int := 2
  const BATTERY_STATUS_FULL: int := 5
  const BATTERY_PLUGGED_AC: int := 1
  const BATTERY_PLUGGED_USB: int := 2
  const BATTERY_PLUGGED_WIRELESS: int := 4

  /** Extra keys of the battery-changed intent. */
  const EXTRA_STATUS: string := "status"
  const EXTRA_LEVEL: string := "level"
  const EXTRA_SCALE: string := "scale"
  const EXTRA_PLUGGED: string := "plugged"
  const EXTRA_TEMPERATURE: string := "temperature"
  const EXTRA_VOLTAGE: string := "voltage"

  /** Charging-type labels. */
  const NOT_CHARGING: string := "Not Charging"
  const LABEL_AC: string := "AC"
  const LABEL_USB: string := "USB"
  const LABEL_WIRELESS: string := "Wireless"
  const LABEL_CHARGING: string := "Charging"

  /** The `current_now` attribute files, in the order they are tried. */
  const CURRENT_PATHS: seq<string> := [
    "/sys/class/power_supply/battery/current_now",
    "/sys/class/power_supply/Battery/current_now",
    "/sys/class/power_supply/usb/current_now",
    "/sys/class/power_supply/ac/current_now",
    "/sys/class/power_supply/main/current_now"
  ]

  /** The `voltage_now` attribute files, in the order they are tried. */
  const VOLTAGE_PATHS: seq<string> := [
    "/sys/class/power_supply/battery/voltage_now",
    "/sys/class/power_supply/Battery/voltage_now",
    "/sys/class/power_supply/usb/voltage_now"
  ]

  /** The integer extras of a battery-changed intent. */
  type Extras = map<string, int>

  /** `intent?.getIntExtra(key, default) ?: default`: the extra when the
      intent exists and carries it, else the default. */
  function GetIntExtra(intent: Option<Extras>, key: string, default: int): (r: int)
    ensures intent.Some? && key in intent.value ==> r == intent.value[key]
    ensures intent.None? || key !in intent.value ==> r == default
  {
    match intent
    case Some(extras) => if key in extras then extras[key] else default
    case None => default
  }

  /** What every "is charging" check in the app looks at: the
      `BatteryManager.isCharging` flag and the sticky intent, if one could be
      obtained. */
  datatype Probe = Probe(managerCharging: bool, intent: Option<Extras>)

  /** The two-tier charging rule: the manager's flag, or else a status of
      CHARGING or FULL in the intent (status -1 when there is none). */
  predicate ChargingRule(p: Probe) {
    p.managerCharging ||
    GetIntExtra(p.intent, EXTRA_STATUS, -1) in {BATTERY_STATUS_CHARGING, BATTERY_STATUS_FULL}
  }

  /** The rule, stated directly in the three situations a caller meets. */
  lemma ChargingRuleCases(p: Probe)
    ensures p.managerCharging ==> ChargingRule(p)
    ensures !p.managerCharging && p.intent.None? ==> !ChargingRule(p)
    ensures !p.managerCharging && p.intent.Some? ==>
      (ChargingRule(p) <==>
        EXTRA_STATUS in p.intent.value && p.intent.value[EXTRA_STATUS] in {2, 5})
  {
  }

  /** All raw inputs of one `getChargingInfo()` call. */
  datatype Readings = Readings(
    probe: Probe,                   // isCharging flag and the first sticky intent
    voltageIntent: Option<Extras>,  // the intent re-read by the voltage fallback
    capacityProperty: int,          // BATTERY_PROPERTY_CAPACITY
    currentProperty: int,           // BATTERY_PROPERTY_CURRENT_NOW
    files: FileSystem)

  datatype ChargingInfo = ChargingInfo(
    wattage: real,
    currentMa: int,
    voltageMv: int,
    batteryPercent: int,
    isCharging: bool,
    chargingType: string,
    temperature: real)

  function Abs(n: int): nat {
    if n < 0 then -n else n
  }

  /** Kotlin's `Int` division, which truncates toward zero. */
  function TruncDiv(a: int, b: int): (q: int)
    requires b > 0
    ensures Abs(q) == Abs(a) / b
    ensures a >= 0 ==> q >= 0
    ensures a <= 0 ==> q <= 0
  {
    if a >= 0 then a / b else -((-a) / b)
  }

  /** A file reading the fallback chain accepts: present and non-zero. */
  predicate Usable(o: Option<int>) {
    o.Some? && o.value != 0
  }

  /** The first usable reading, in list order. */
  function FirstUsable(values: seq<Option<int>>): (r: Option<int>)
    ensures r.None? <==> forall i :: 0 <= i < |values| ==> !Usable(values[i])
    ensures r.Some? ==> exists k :: 0 <= k < |values| && values[k] == r && r.value != 0 &&
                                    forall j :: 0 <= j < k ==> !Usable(values[j])
  {
    if |values| == 0 then None
    else if Usable(values[0]) then values[0]
    else
      var rest := FirstUsable(values[1..]);
      assert forall i :: 1 <= i < |values| ==> values[i] == values[1..][i - 1];
      if rest.Some? then
        var k :| 0 <= k < |values[1..]| && values[1..][k] == rest && rest.value != 0 &&
                 forall j :: 0 <= j < k ==> !Usable(values[1..][j]);
        assert values[k + 1] == rest;
        rest
      else rest
  }

  /** `readSysFile` on each path, in order. */
  function ReadAll(fs: FileSystem, paths: seq<string>): (r: seq<Option<int>>)
    ensures |r| == |paths|
    ensures forall i :: 0 <= i < |paths| ==> r[i] == ReadSysFile(fs, paths[i])
  {
    seq(|paths|, i requires 0 <= i < |paths| => ReadSysFile(fs, paths[i]))
  }

  /** `getCurrentMicroAmps()`: the first usable `current_now` file, else the
      manager's current property as it is, zero or negative included. */
  function CurrentMicroAmps(rd: Readings): (r: int)
  {
    FirstUsable(ReadAll(rd.files, CURRENT_PATHS)).GetOr(rd.currentProperty)
  }

  /** `getVoltageMicroVolts()`: the first usable `voltage_now` file, else the
      re-read intent's millivolts times 1000 (0 without an intent). */
  function VoltageMicroVolts(rd: Readings): (r: int)
  {
    FirstUsable(ReadAll(rd.files, VOLTAGE_PATHS)).GetOr(GetIntExtra(rd.voltageIntent, EXTRA_VOLTAGE, 0) * 1000)
  }

  /** `getBatteryPercent()`: the capacity property when positive, else
      level*100/scale from the intent when level >= 0 and scale > 0, else 0. */
  function BatteryPercent(capacity: int, intent: Option<Extras>): (r: int)
    ensures r >= 0
    ensures capacity > 0 ==> r == capacity
    ensures capacity <= 0 ==>
      var level := GetIntExtra(intent, EXTRA_LEVEL, -1);
      var scale := GetIntExtra(intent, EXTRA_SCALE, 100);
      if level >= 0 && scale > 0 then r * scale <= level * 100 < (r + 1) * scale
      else r == 0
  {
    if capacity > 0 then capacity
    else
      var level := GetIntExtra(intent, EXTRA_LEVEL, -1);
      var scale := GetIntExtra(intent, EXTRA_SCALE, 100);
      if level >= 0 && scale > 0 then (level * 100) / scale else 0
  }

  /** `getChargingType()`: "Not Charging" exactly when not charging; else the
      plug source, or the generic "Charging" for any other code. */
  function ChargingType(intent: Option<Extras>, isCharging: bool): (r: string)
    ensures r == NOT_CHARGING <==> !isCharging
    ensures isCharging ==> r in {LABEL_AC, LABEL_USB, LABEL_WIRELESS, LABEL_CHARGING}
    ensures isCharging && intent.None? ==> r == LABEL_CHARGING
  {
    if !isCharging then NOT_CHARGING
    else
      var plugged := GetIntExtra(intent, EXTRA_PLUGGED, 0);
      if plugged == BATTERY_PLUGGED_AC then LABEL_AC
      else if plugged == BATTERY_PLUGGED_USB then LABEL_USB
      else if plugged == BATTERY_PLUGGED_WIRELESS then LABEL_WIRELESS
      else LABEL_CHARGING
  }

  /** `getTemperature()`: the intent's tenths of a degree, in degrees. */
  function Temperature(intent: Option<Extras>): (r: real)
    ensures r * 10.0 == GetIntExtra(intent, EXTRA_TEMPERATURE, 0) as real
    ensures intent.None? ==> r == 0.0
  {
    GetIntExtra(intent, EXTRA_TEMPERATURE, 0) as real / 10.0
  }

  /** |V * I| / 10^12 watts while charging with a non-zero current, else 0. */
  function Wattage(isCharging: bool, microVolts: int, microAmps: int): (w: real)
    ensures w >= 0.0
    ensures !isCharging || microAmps == 0 ==> w == 0.0
    ensures w * 1_000_000_000_000.0 == (if isCharging then Abs(microVolts * microAmps) as real else 0.0)
  {
    if isCharging && microAmps != 0 then
      Abs(microVolts * microAmps) as real / 1_000_000_000_000.0
    else 0.0
  }

  /** `getChargingInfo()`. */
  function GetChargingInfo(rd: Readings): (info: ChargingInfo)
    ensures info.isCharging == ChargingRule(rd.probe)
    ensures info.wattage >= 0.0
    ensures !info.isCharging ==> info.wattage == 0.0
    ensures info.currentMa >= 0 && info.currentMa == Abs(CurrentMicroAmps(rd)) / 1000
    ensures info.voltageMv == TruncDiv(VoltageMicroVolts(rd), 1000)
    ensures info.wattage == Wattage(info.isCharging, VoltageMicroVolts(rd), CurrentMicroAmps(rd))
    ensures info.batteryPercent == BatteryPercent(rd.capacityProperty, rd.probe.intent)
    ensures info.batteryPercent >= 0
    ensures info.chargingType == ChargingType(rd.probe.intent, info.isCharging)
    ensures info.chargingType == NOT_CHARGING <==> !info.isCharging
    ensures info.temperature == Temperature(rd.probe.intent)
  {
    var isCharging := ChargingRule(rd.probe);
    var current := CurrentMicroAmps(rd);
    var voltage := VoltageMicroVolts(rd);
    ChargingInfo(
      wattage := Wattage(isCharging, voltage, current),
      currentMa := Abs(TruncDiv(current, 1000)),
      voltageMv := TruncDiv(voltage, 1000),
      batteryPercent := BatteryPercent(rd.capacityProperty, rd.probe.intent),
      isCharging := isCharging,
      chargingType := ChargingType(rd.probe.intent, isCharging),
      temperature := Temperature(rd.probe.intent))
  }

  /** A usable reading with none usable before it is the one the chain picks. */
  lemma FirstUsableAt(values: seq<Option<int>>, k: int)
    requires 0 <= k < |values| && Usable(values[k])
    requires forall j :: 0 <= j < k ==> !Usable(values[j])
    ensures FirstUsable(values) == values[k]
  {
  }

  /** The current comes from the first usable `current_now` file in path
      order. */
  lemma CurrentFromFile(rd: Readings, k: int)
    requires 0 <= k < |CURRENT_PATHS| && Usable(ReadSysFile(rd.files, CURRENT_PATHS[k]))
    requires forall j :: 0 <= j < k ==> !Usable(ReadSysFile(rd.files, CURRENT_PATHS[j]))
    ensures CurrentMicroAmps(rd) == ReadSysFile(rd.files, CURRENT_PATHS[k]).value
  {
    FirstUsableAt(ReadAll(rd.files, CURRENT_PATHS), k);
  }

  /** With no usable `current_now` file, the current property is taken as it
      is, zero or negative included. */
  lemma CurrentFromProperty(rd: Readings)
    requires forall i :: 0 <= i < |CURRENT_PATHS| ==> !Usable(ReadSysFile(rd.files, CURRENT_PATHS[i]))
    ensures CurrentMicroAmps(rd) == rd.currentProperty
  {
    assert forall i :: 0 <= i < |CURRENT_PATHS| ==> !Usable(ReadAll(rd.files, CURRENT_PATHS)[i]);
  }

  /** The voltage comes from the first usable `voltage_now` file in path
      order. */
  lemma VoltageFromFile(rd: Readings, k: int)
    requires 0 <= k < |VOLTAGE_PATHS| && Usable(ReadSysFile(rd.files, VOLTAGE_PATHS[k]))
    requires forall j :: 0 <= j < k ==> !Usable(ReadSysFile(rd.files, VOLTAGE_PATHS[j]))
    ensures VoltageMicroVolts(rd) == ReadSysFile(rd.files, VOLTAGE_PATHS[k]).value
  {
    FirstUsableAt(ReadAll(rd.files, VOLTAGE_PATHS), k);
  }

  /** With no usable `voltage_now` file, the voltage is the re-read intent's
      millivolts times 1000, or 0 when that intent or its extra is missing. */
  lemma VoltageFromIntent(rd: Readings)
    requires forall i :: 0 <= i < |VOLTAGE_PATHS| ==> !Usable(ReadSysFile(rd.files, VOLTAGE_PATHS[i]))
    ensures VoltageMicroVolts(rd) ==
      (if rd.voltageIntent.Some? && EXTRA_VOLTAGE in rd.voltageIntent.value
       then rd.voltageIntent.value[EXTRA_VOLTAGE] * 1000 else 0)
  {
    assert forall i :: 0 <= i < |VOLTAGE_PATHS| ==> !Usable(ReadAll(rd.files, VOLTAGE_PATHS)[i]);
  }

  /** With every earlier entry absent or zero, the third one is returned. */
  lemma ThirdSourceWins(values: seq<Option<int>>, v: int)
    requires |values| >= 3 && values[2] == Some(v) && v != 0
    requires !Usable(values[0]) && !Usable(values[1])
    ensures FirstUsable(values) == Some(v)
  {
  }

  /** The plug-code mapping while charging. */
  lemma ChargingTypeMapping(intent: Option<Extras>)
    ensures var plugged := GetIntExtra(intent, EXTRA_PLUGGED, 0);
      && (ChargingType(intent, true) == LABEL_AC <==> plugged == 1)
      && (ChargingType(intent, true) == LABEL_USB <==> plugged == 2)
      && (ChargingType(intent, true) == LABEL_WIRELESS <==> plugged == 4)
      && (ChargingType(intent, true) == LABEL_CHARGING <==> plugged !in {1, 2, 4})
  {
  }

  /** A failing capacity query with level 50 of scale 100 gives 50 percent. */
  lemma PercentFromIntent(capacity: int, extras: Extras)
    requires capacity <= 0
    requires EXTRA_LEVEL in extras && extras[EXTRA_LEVEL] == 50
    requires EXTRA_SCALE in extras && extras[EXTRA_SCALE] == 100
    ensures BatteryPercent(capacity, Some(extras)) == 50
  {
  }

  /** A first current file holding "2000000" and a first voltage file
      holding "5000000", each newline-terminated, read while charging, give
      10 W, 2000 mA and 5000 mV. */
  lemma TenWattExample(rd: Readings)
    requires rd.probe.managerCharging
    requires rd.files == map[CURRENT_PATHS[0] := Text(FormatInt(2_000_000) + "\n"),
                             VOLTAGE_PATHS[0] := Text(FormatInt(5_000_000) + "\n")]
    ensures GetChargingInfo(rd).wattage == 10.0
    ensures GetChargingInfo(rd).currentMa == 2000
    ensures GetChargingInfo(rd).voltageMv == 5000
  {
    ReadFormattedFile(rd.files, CURRENT_PATHS[0], 2_000_000);
    ReadFormattedFile(rd.files, VOLTAGE_PATHS[0], 5_000_000);
    CurrentFromFile(rd, 0);
    VoltageFromFile(rd, 0);
  }
}

=== FILE: update_service.dfy ===
/**
  `WidgetUpdateService`: the foreground service that keeps the widget fresh
  with a polling loop while the device charges.

  `Start` and `Stop` are the companion helpers other components call; the
  service's own lifecycle callbacks (`onStartCommand`, a loop iteration, the
  power-disconnected receiver it registers in `onCreate`, `onDestroy`) are
  separate events the platform delivers later. One loop iteration -- render,
  wait two seconds, check charging -- is one `LoopTick`.
*/
module UpdateService {
  import opened RefreshState
  import Telemetry

  /** `updateJob?.cancel()`: only the loop the service tracks is cancelled. */
  function CancelTracked(loops: nat): (r: nat)
    ensures loops > 0 ==> r == loops - 1
    ensures loops == 0 ==> r == 0
  {
    if loops > 0 then loops - 1 else 0
  }

  /** `startUpdating()`: cancels the tracked loop, then launches a new one. */
  function StartUpdating(s: State): (s': State)
    ensures s'.loops >= 1
    ensures s.loops <= 1 ==> s'.loops == 1
    ensures s' == s.(loops := s'.loops)
  {
    var cancelled := s.(loops := CancelTracked(s.loops));
    cancelled.(loops := cancelled.loops + 1)
  }

  /** `WidgetUpdateService.start`: asks for a foreground start; if the
      platform refuses, draws the widgets once directly instead. */
  function Start(s: State, env: Env): (r: Step)
    ensures Renders(r.effects) == (if env.foregroundStartAllowed then 0 else 1)
    ensures env.foregroundStartAllowed ==> r.effects == [StartService] && r.state.serviceRunning
    ensures !env.foregroundStartAllowed ==> r.effects == RenderAll(env) && r.state == s
    ensures r.state == s.(serviceRunning := r.state.serviceRunning)
    ensures Valid(s) ==> Valid(r.state)
  {
    if env.foregroundStartAllowed then Step(s.(serviceRunning := true), [StartService])
    else Step(s, RenderAll(env))
  }

  /** `onDestroy`: cancels the tracked loop; the disconnect receiver is
      unregistered with the service. */
  function Destroy(s: State): (s': State)
    ensures !s'.serviceRunning
    ensures s.loops <= 1 ==> s'.loops == 0
    ensures s'.jobs == s.jobs && s'.periodicWork == s.periodicWork
  {
    s.(serviceRunning := false, loops := CancelTracked(s.loops))
  }

  /** `WidgetUpdateService.stop`: asks the service to stop; stopping a
      service that is not running changes nothing and never fails. */
  function Stop(s: State): (r: Step)
    ensures r.effects == [StopService]
    ensures !r.state.serviceRunning
    ensures !s.serviceRunning ==> r.state == s
    ensures Valid(s) ==> Valid(r.state) && r.state.loops == 0
    ensures r.state.jobs == s.jobs && r.state.periodicWork == s.periodicWork
  {
    Step(if s.serviceRunning then Destroy(s) else s, [StopService])
  }

  /** `onCreate` (when not yet running) followed by `onStartCommand`: one
      immediate render, then the polling loop is (re)started. */
  function OnStartCommand(s: State, env: Env): (r: Step)
    ensures r.effects == RenderAll(env)
    ensures r.state.serviceRunning
    ensures Valid(s) ==> Valid(r.state) && r.state.loops == 1
    ensures r.state.jobs == s.jobs && r.state.periodicWork == s.periodicWork
  {
    Step(StartUpdating(s.(serviceRunning := true)), RenderAll(env))
  }

  /** One iteration of the polling loop: render, wait, then check charging
      with what is observed after the wait. Still charging: the loop goes on.
      Not charging: one more render, the service stops itself, the loop ends.
      With no live loop there is nothing to tick. */
  function LoopTick(s: State, env: Env): (r: Step)
    ensures s.loops == 0 ==> r == Step(s, [])
    ensures s.loops > 0 ==> |r.effects| >= 1 && r.effects[..1] == RenderAll(env)
    ensures s.loops > 0 && Telemetry.ChargingRule(env.probe) ==> r == Step(s, RenderAll(env))
    ensures s.loops > 0 && !Telemetry.ChargingRule(env.probe) ==>
      && r.effects == RenderAll(env) + RenderAll(env) + [StopService]
      && !r.state.serviceRunning
      && r.state.loops == s.loops - 1
    ensures r.state.jobs == s.jobs && r.state.periodicWork == s.periodicWork
    ensures Valid(s) ==> Valid(r.state)
  {
    if s.loops == 0 then Step(s, [])
    else if Telemetry.ChargingRule(env.probe) then Step(s, RenderAll(env))
    else
      // The loop breaks after stopSelf(); the cancel in onDestroy then finds
      // the tracked loop already finished.
      var ended := s.(loops := s.loops - 1);
      Step(ended.(serviceRunning := false), RenderAll(env) + RenderAll(env) + [StopService])
  }

  /** The service's own power-disconnected receiver: registered only while
      the service runs; renders once, then stops the service. */
  function OnPowerDisconnected(s: State, env: Env): (r: Step)
    ensures !s.serviceRunning ==> r == Step(s, [])
    ensures s.serviceRunning ==> r.effects == RenderAll(env) + [StopService] && !r.state.serviceRunning
    ensures r.state.jobs == s.jobs && r.state.periodicWork == s.periodicWork
    ensures Valid(s) ==> Valid(r.state) && r.state.loops == 0
  {
    if s.serviceRunning then Step(Destroy(s), RenderAll(env) + [StopService])
    else Step(s, [])
  }

  /** Repeated start commands never add a loop: the state after a second
      start command is the state after the first. */
  lemma StartCommandIdempotent(s: State, e1: Env, e2: Env)
    requires Valid(s)
    ensures OnStartCommand(OnStartCommand(s, e1).state, e2).state == OnStartCommand(s, e1).state
  {
  }

  /** Stopping twice is stopping once. */
  lemma StopIdempotent(s: State)
    ensures Stop(Stop(s).state).state == Stop(s).state
  {
  }

  /** After a stop no loop is left to tick. */
  lemma NoTickAfterStop(s: State, env: Env)
    requires Valid(s)
    ensures LoopTick(Stop(s).state, env) == Step(Stop(s).state, [])
  {
  }

  /** A session started while the device is not charging still draws the
      widget: once for the start command, once at the top of the first loop
      iteration, once after the failed check; then the service is gone. */
  lemma SessionWithoutCharging(s: State, env: Env)
    requires Valid(s) && !Telemetry.ChargingRule(env.probe)
    ensures var c := OnStartCommand(s, env);
            var t := LoopTick(c.state, env);
            && Renders(c.effects + t.effects) == 3
            && !t.state.serviceRunning && t.state.loops == 0
  {
    var c := OnStartCommand(s, env);
    var t := LoopTick(c.state, env);
    RendersAppend(c.effects, t.effects);
    assert t.effects == [Render(env.widgets), Render(env.widgets), StopService];
  }
}

=== FILE: widget_provider.dfy ===
/**
  The `ChargingWidgetProvider` callbacks the widget host delivers.
*/
module WidgetProvider {
  import opened RefreshState
  import Telemetry
  import UpdateService
  import JobService
  import CheckWorker

  /** `onUpdate`: draws each given widget, then starts the service if the
      device is charging. */
  function OnUpdate(s: State, widgetIds: seq<int>, env: Env): (r: Step)
    ensures |r.effects| >= 1 && r.effects[0] == Render(widgetIds)
    ensures Telemetry.ChargingRule(env.probe) ==>
      r == Step(UpdateService.Start(s, env).state, [Render(widgetIds)] + UpdateService.Start(s, env).effects)
    ensures !Telemetry.ChargingRule(env.probe) ==> r == Step(s, [Render(widgetIds)])
    ensures Valid(s) ==> Valid(r.state)
  {
    if Telemetry.ChargingRule(env.probe) then
      var started := UpdateService.Start(s, env);
      Step(started.state, [Render(widgetIds)] + started.effects)
    else Step(s, [Render(widgetIds)])
  }

  /** `onEnabled`: schedules the jobs and the worker, then starts the service
      if the device is charging. Draws nothing itself. */
  function OnEnabled(s: State, env: Env): (r: Step)
    ensures |r.effects| >= 2 && r.effects[..2] == [ScheduleJobs, ScheduleWorker]
    ensures Telemetry.ChargingRule(env.probe) ==> r.effects[2..] == UpdateService.Start(s, env).effects
    ensures !Telemetry.ChargingRule(env.probe) ==> |r.effects| == 2
    ensures {JOB_ID_CHARGING, JOB_ID_NOT_CHARGING} <= r.state.jobs.Keys && WORK_NAME in r.state.periodicWork
    ensures env.foregroundStartAllowed ==> Renders(r.effects) == 0
    ensures r.state.serviceRunning == (s.serviceRunning || (Telemetry.ChargingRule(env.probe) && env.foregroundStartAllowed))
    ensures r.state.loops == s.loops
    ensures r.state.jobs == JobService.Schedule(s).state.jobs
    ensures r.state.periodicWork == CheckWorker.Schedule(JobService.Schedule(s).state).state.periodicWork
    ensures Valid(s) ==> Valid(r.state)
  {
    var jobs := JobService.Schedule(s);
    var work := CheckWorker.Schedule(jobs.state);
    var effects := jobs.effects + work.effects;
    if Telemetry.ChargingRule(env.probe) then
      var started := UpdateService.Start(work.state, env);
      Step(started.state, effects + started.effects)
    else Step(work.state, effects)
  }

  /** `onDisabled`: the last widget is gone; stops the service. */
  function OnDisabled(s: State): (r: Step)
    ensures r == UpdateService.Stop(s)
    ensures !r.state.serviceRunning
    ensures Valid(s) ==> Valid(r.state) && r.state.loops == 0
  {
    UpdateService.Stop(s)
  }
}

=== FILE: widget_view.dfy ===
/**
  What `ChargingWidgetProvider.updateWidget` puts on one widget, as an
  abstract view record, and `updateAllWidgets`, which draws every installed
  widget from its own fresh reading.
*/
module WidgetView {
  import opened Telemetry

  /** The wattage text: the "-- W" placeholder, or a formatted number. */
  datatype WattageText = Placeholder | Formatted(watts: real)

  /** The current line: hidden, or visible with milliamps. */
  datatype CurrentField = Hidden | Shown(milliamps: int)

  datatype Icon = ChargingIcon | BatteryIcon

  datatype View = View(
    chargingType: string,
    wattage: WattageText,
    batteryPercent: int,
    current: CurrentField,
    progressMax: int,
    progress: int,
    icon: Icon)

  const PROGRESS_MAX: int := 100

  /** The field decisions of `updateWidget` for one snapshot. */
  function ViewOf(info: ChargingInfo): (v: View)
    ensures v.wattage.Placeholder? <==> !info.isCharging
    ensures v.current.Shown? <==> info.isCharging
    ensures v.icon == ChargingIcon <==> info.isCharging
    ensures info.isCharging ==> v.wattage == Formatted(info.wattage) && v.current == Shown(info.currentMa)
    ensures v.chargingType == info.chargingType && v.batteryPercent == info.batteryPercent
    ensures v.progressMax == 100 && v.progress == info.batteryPercent
  {
    View(
      chargingType := info.chargingType,
      wattage := if info.isCharging then Formatted(info.wattage) else Placeholder,
      batteryPercent := info.batteryPercent,
      current := if info.isCharging then Shown(info.currentMa) else Hidden,
      progressMax := PROGRESS_MAX,
      progress := info.batteryPercent,
      icon := if info.isCharging then ChargingIcon else BatteryIcon)
  }

  /** Drawn from live readings, the widget shows power and current exactly
      when the two-tier rule says the device charges; the current shown is
      the magnitude of the measured current in whole milliamps, and the
      wattage shown is never negative. */
  lemma ViewOfReadings(rd: Readings)
    ensures var v := ViewOf(GetChargingInfo(rd));
      && (v.wattage.Placeholder? <==> !ChargingRule(rd.probe))
      && (v.wattage.Formatted? ==> v.wattage.watts >= 0.0)
      && (v.current.Shown? <==> ChargingRule(rd.probe))
      && (v.current.Shown? ==> v.current.milliamps == Abs(CurrentMicroAmps(rd)) / 1000)
      && (v.chargingType == NOT_CHARGING <==> v.icon == BatteryIcon)
  {
  }

  /** One widget drawn: its id and the view it got. */
  datatype Update = Update(widgetId: int, view: View)

  /** `updateAllWidgets`: every installed id drawn once, in order, each from
      the snapshot `getChargingInfo()` returned for it; `snapshot(i)` is the
      i-th snapshot, so no widget reuses another's. */
  method UpdateAllWidgets(ids: seq<int>, snapshot: nat -> ChargingInfo) returns (updates: seq<Update>)
    ensures |updates| == |ids|
    ensures forall i :: 0 <= i < |ids| ==> updates[i] == Update(ids[i], ViewOf(snapshot(i)))
  {
    updates := [];
    for i := 0 to |ids|
      invariant |updates| == i
      invariant forall k :: 0 <= k < i ==> updates[k] == Update(ids[k], ViewOf(snapshot(k)))
    {
      updates := updates + [Update(ids[i], ViewOf(snapshot(i)))];
    }
  }
}

=== FILE: wrappers.dfy ===
/** Optional values: Kotlin's nullable types (`Int?`, `Intent?`) in the model. */
module Wrappers {

  /** `None` plays the role of Kotlin's `null`. */
  datatype Option<+T> = None | Some(value: T) {

    /** The value, or `default` when there is none (Kotlin's `?: default`). */
    function GetOr(default: T): (r: T)
      ensures Some? ==> r == value
      ensures None? ==> r == default
    {
      match this
      case Some(v) => v
      case None => default
    }
  }
}
